=== FILE: README.md ===
# cbtr dispatcher model

A Dafny model of the decision logic of `cbtr`, a multicall task dispatcher.
Invoked as `f`/`format`, `c`/`check`, `b`/`build`, `t`/`test` or `r`/`run`,
it picks the first configuration entry that matches the working directory
and runs that entry's tools for the command. The model covers:

- which entry matches: marker-file search between the working directory
  and the repository root, backwards (from `cwd` up) or forwards (from the
  root down), and the binary and file checks of `Entry::matches`;
- which tools run, in what order, and how the program ends. This covers
  the multicall front end of `src/main.rs`, which stops at the first
  non-zero exit code. It also covers the library driver of `src/lib.rs`,
  which looks for `detect` files with its own upward search and keeps going
  past non-zero return codes.

The filesystem, `$PATH` and child processes are parameters:

- `files: set<Path>` is the set of paths where `is_file` holds.
- `existing: set<Path>` is the set of paths where `try_exists` answers `Ok(true)`.
- `bins: set<string>` is the set of names `which` resolves.
- `run` is an oracle from an invocation to the child's exit code or an error.
  It is a function, so the same invocation always gives the same result
  within one run.

A path is absolute and normalised: the sequence of its component names
below `/`. The process exit is returned as a value (`Trace`/`LibTrace`)
that also records every command invoked.

Modules:

- `Wrappers`: `Option`.
- `Paths`: paths, `Component`, and `DiffPaths`, which models `pathdiff::diff_paths`.
- `Search`: `back_search`, `forward_search`, `path_search`.
- `Config`: entries, matching, `Config::append`.
- `Tokens`: `split_whitespace`.
- `Text`: separator joining.
- `Multicall`: `src/main.rs`.
- `Driver`: `src/lib.rs`.

`src/main.rs` declares the search functions and the entry types of
`src/config.rs` again, with the same behaviour. It writes the default of
`Direction` by hand where `src/config.rs` derives it, and its `Config` has
no `append`. They are modelled once, in `Search` and `Config`.

Behaviour of the code worth knowing:

- Backwards search does not stop defensively at `/`. It calls
  `parent().unwrap()` and panics there. `src/main.rs` passes as the root
  the parent of the git directory `gix` discovers (`src/main.rs:223-228`),
  or `cwd` outside a repository. For a linked worktree or a submodule the
  git directory lies under the main repository's `.git/`, so that root is
  not an ancestor of `cwd`. Only a backwards search that is actually
  reached needs an ancestor root. An entry reaches it only when its rule
  searches backwards for at least one name and all its binaries resolve
  (`Config.Evaluable`).
  The loop reaches only the entries up to the first that yields tools
  (`Multicall.EvaluableUntilSelected`). The model requires an ancestor
  root only for those. Every other entry is evaluated against any root.
- Forward search from outside the root does not fail at once. It still
  checks `root/file` before it meets the first `..` component
  (`Search.ForwardSearch`, `Config.MatchesOutsideRoot`).
- A matching entry without tools for the command is not an error in
  `src/main.rs`. Selection moves on to the next entry. Only `src/lib.rs`
  treats a detected target without commands as an error.
- `src/main.rs` reads only the user configuration file and exits with 1
  when it is missing. `Config::append` exists only in `src/config.rs`,
  which neither `src/main.rs` nor `src/lib.rs` declares as a module. No
  code path in these files runs it. `Multicall.SelectAfterAppend` states
  what selection over an appended configuration would be.
- A tool that cannot be found or run does not end with its own exit code.
  `run(...).await?` makes `main` return an error, which exits with 1.

## Model

| member | source | states |
|---|---|---|
| `Paths.DiffPaths` | src/config.rs:28 | for absolute paths the difference always exists; inside the root it is the `Normal` components of `cwd` below the root, outside it starts with `..` |
| `Search.BackSearch` | src/config.rs:10-19 | when `cwd` is the root, exactly one candidate, `cwd/file`, decides the answer |
| `Search.BackSearchSpec` | src/config.rs:8-24 | with the root an ancestor of `cwd`, backwards search is true iff some directory from `cwd` up to the root, both included, holds the file |
| `Search.BackSearchStaysBelowRoot` | src/config.rs:17-21 | backwards search never looks above the root: filesystems that agree from `cwd` up to the root give the same answer |
| `Search.DescendNormals` | src/config.rs:35-43 | walking down `Normal` components finds the file iff it is in one of the directories stepped into |
| `Search.DescendSkipsCurDir` | src/config.rs:44-46 | `.` components are skipped: removing them does not change the answer |
| `Search.DescendStopsAtEscape` | src/config.rs:47-49 | at the first component that is neither `Normal` nor `.` the walk fails; nothing after it is examined |
| `Search.ForwardSearch` | src/config.rs:27-55 | inside the root, forward search is true iff some directory from the root down to `cwd`, both included, holds the file; outside the root it is true iff `root/file` exists |
| `Search.ForwardWalkInside` | src/config.rs:27-43 | inside the root, looking in the root and then walking the relative path down finds the file iff the root or some directory on the way down to `cwd` holds it |
| `Search.ForwardWalkOutside` | src/config.rs:28-33 | outside the root, the walk is true iff `root/file` exists, because the relative path starts with `..` |
| `Search.ForwardSearchAtRoot` | src/config.rs:29-33 | when `cwd` is the root, forward search is the single check of `root/file` |
| `Search.PathSearch` | src/config.rs:56-61 | with the root an ancestor of `cwd`, either direction is true iff some directory from `cwd` up to the root holds the file; with any other root, forward search is true iff `root/file` exists |
| `Search.DirectionsAgreeInside` | src/config.rs:56-61 | whenever the root is an ancestor of `cwd`, both directions give the same answer |
| `Config.OmittedDirectionSearchesForwards` | src/config.rs:88-101 | a file rule that leaves out `search-direction` matches iff every marker file is found by forward search, under any root |
| `Config.SingleSpellingMatches` | src/config.rs:70-77 | a single string in `bin` or in the file names matches exactly as a list holding only that string |
| `Config.AllOnPath` | src/config.rs:114-121 | the early-return loop over `bin` is true iff every listed binary resolves |
| `Config.AllFound` | src/config.rs:123-130 | the early-return loop over file names is true iff every name is found in the declared direction; an empty list is true under any root, and a backwards search of a non-empty list needs the root to be an ancestor of `cwd` |
| `Config.Matches` | src/config.rs:113-133 | an entry matches iff all its binaries resolve and all its files are found in the rule's direction, forwards when none is written; with neither `bin` nor `file` it always matches; the root must be an ancestor of `cwd` only when the rule searches backwards for at least one name and every binary resolves, because a missing binary returns before any search and an empty name list runs none |
| `Config.EmptyBackwardsRuleMatches` | src/config.rs:123-132 | a backwards rule with no names runs no search: it matches under any root iff the binaries resolve |
| `Config.MatchesOutsideRoot` | src/config.rs:113-133 | under a root that is not an ancestor of `cwd`, an entry that does not reach a backwards search matches iff its binaries resolve and every marker file is in the root |
| `Config.Append` | src/config.rs:143-145 | the result holds the first configuration's entries in order, followed by the other's; the length is the sum |
| `Multicall.SelectAfterAppend` | src/config.rs:143-145 | after `append`, the appended entries are consulted only when no entry of the first configuration yields tools, and they need an evaluable root only then |
| `Multicall.ParseCommand` | src/main.rs:49-59 | a parsed name is the command's short or long name; a rejected name is no command's short or long name |
| `Multicall.ParseCommandNames` | src/main.rs:49-59 | a name parses to a command iff it is that command's short or long name |
| `Multicall.ParseCommandRejects` | src/main.rs:49-59 | every string other than the ten names is rejected |
| `Multicall.Display` | src/main.rs:69-80 | the displayed form is the short name, a slash, and the long name |
| `Multicall.DisplayNamesParse` | src/main.rs:69-80 | each displayed form is `short/long`, and both halves parse back to the same command |
| `Multicall.BuildOptions` | src/main.rs:283-293 | the loop builds `[`, the options separated by `, `, then `]` |
| `Multicall.OptionsText` | src/main.rs:283-293 | the options text lists the five displayed commands in declaration order: `[f/format, c/check, b/build, t/test, r/run]` |
| `Multicall.ToolsFor` | src/main.rs:349-365 | the tools an entry declares for a command are the list stored under the command's long name in its `tools` table |
| `Multicall.SelectTools` | src/main.rs:343-371 | the result is the tool list of the first entry that matches and declares tools for the command, every entry before it being passed over; it is `None` iff every entry is passed over; an ancestor root is needed only for the entries the loop reaches before it breaks |
| `Multicall.CatchAllShieldsLaterEntries` | src/main.rs:343-371 | an entry with no `bin` and no `file` that declares tools for the command is selected whatever follows it, and the entries after it are never evaluated, whatever the root |
| `Multicall.MissingBinaryFallsThrough` | src/main.rs:343-371 | an entry whose binary is missing is passed over under any root, before its files are searched, and a later catch-all entry supplies the tools |
| `Multicall.ToInvocation` | src/main.rs:384-386 | a tool string has no invocation iff it is blank; otherwise the program and its arguments are its whitespace tokens, in order |
| `Multicall.RunTools` | src/main.rs:378-383 | in dry-run mode nothing is invoked and the loop finishes normally |
| `Multicall.RunToolsInOrder` | src/main.rs:378-392 | tool `i` is invoked as the tokens of tool string `i`, and every tool before the last one invoked exited with 0 |
| `Multicall.RunToolsOutcome` | src/main.rs:378-396 | the loop finishes normally iff all tools ran and exited with 0; `exit(code)` only for a non-zero code of the last tool run; an error only when that tool could not be run; a panic only at a blank tool string |
| `Multicall.SingleToolSpellings` | src/main.rs:373-396 | a tool written as one string runs exactly as a one-element list: a blank one panics, otherwise it is invoked once and its result decides the outcome |
| `Multicall.RunToolsAllSucceed` | src/main.rs:378-396 | when every tool exits with 0, all of them run and the loop finishes normally |
| `Multicall.RunToolsStopsAtFirstFailure` | src/main.rs:387-392 | when tool `k` is the first with a non-zero code, exactly tools `0..k` run and the program exits with that code |
| `Multicall.Main` | src/main.rs:295-396 | the name `cbtr` or an unknown name exits with 2 before configuration is read; a missing configuration or no yielding entry exits with 1 and runs nothing; otherwise the selected tools run; the root is the discovered one, or `cwd` outside a repository, and must be an ancestor of `cwd` only for a reached backwards search |
| `Multicall.MainSucceeds` | src/main.rs:373-396 | the exit status is 0 iff the name is a command, a configuration exists, some entry yields tools, and the run is a dry run or every tool ran and exited with 0 |
| `Multicall.SingleBuildToolScenario` | src/main.rs:378-396 | a catch-all entry with one `build` tool, invoked as `b`, runs exactly that program with its arguments and finishes with status 0 when it exits with 0 |
| `Tokens.SplitWhitespace` | src/main.rs:384 | every token is non-empty and holds no white space; there are no tokens iff the string is blank |
| `Tokens.SplitWord` | src/main.rs:384 | a non-empty string without white space is a single token |
| `Tokens.SplitAppendBlank` | src/main.rs:384 | two strings joined by any non-empty run of white space split into the tokens of the first followed by those of the second |
| `Tokens.SplitKeepsText` | src/main.rs:384 | the tokens, laid end to end, are the string with its white space removed |
| `Tokens.SplitUnwords` | src/lib.rs:183 | words joined by single spaces split back into the same words |
| `Driver.IndentOf` | src/lib.rs:129-136 | the indent is the configured `settings.indent` when present, otherwise the default indent: two spaces, a bar and a space |
| `Driver.IndentDefaults` | src/lib.rs:129-136 | a missing `settings` table, the default settings and a table without `indent` all give the default indent |
| `Driver.Pop` | src/lib.rs:62 | popping drops the last component, giving a prefix one shorter; `/` stays `/` |
| `Driver.PopJoin` | src/lib.rs:56-62 | popping after pushing a name gives back the directory |
| `Driver.NamedFileExists` | src/lib.rs:56-59 | a found path is one that exists |
| `Driver.NamedFileExistsSpec` | src/lib.rs:52-69 | the search looks in `cwd`, then in its ancestors that lie inside the root. It answers with the deepest of these holding the file, as `dir/file`, and with `None` iff none does |
| `Driver.NamedFileExistsOutside` | src/lib.rs:62-67 | when `cwd` is outside the root, only `cwd` itself is looked at |
| `Driver.OperationFromExecName` | src/lib.rs:142-148 | `c`, `b`, `t` and `r` select Check, Build, Test and Run, each iff the name is that letter; any other name is an error |
| `Driver.ExecNamesAreShortNames` | src/lib.rs:142-148 | the driver accepts a name iff it is the multicall short name of one of its four operations; it rejects `f` and every long name, which the multicall front end accepts |
| `Driver.CommandsFor` | src/lib.rs:169-174 | the commands a target declares for an operation are the list stored under the operation's long name |
| `Driver.AllDetected` | src/lib.rs:155-167 | the early-break loop over `detect` is true iff every detect file is found; an empty list is always detected |
| `Driver.SelectTarget` | src/lib.rs:154-168 | the selected target is the first whose detect files are all found; `None` iff there is no such target |
| `Driver.RunCommands` | src/lib.rs:179-187 | the loop ends either completed or on a command error, having run at most every command |
| `Driver.RunCommandsSpec` | src/lib.rs:179-187 | commands run in declared order as their whitespace tokens, and a non-zero return code does not stop the loop |
| `Driver.RunCommandsCompletes` | src/lib.rs:179-187 | the loop completes iff every command ran and returned a code, whatever its value |
| `Driver.RunCommandsFails` | src/lib.rs:183-186 | the loop stops early only at an error of the last command run |
| `Driver.RunCommandsIgnoresCodes` | src/lib.rs:183-186 | without errors every command runs, whatever its return code |
| `Driver.Drive` | src/lib.rs:142-192 | an unknown executable name is an error; no detected target completes with nothing run; a detected target without commands for the operation is an error; otherwise its commands run |
| `Driver.DriveNoFallthrough` | src/lib.rs:169-178 | a detected target without commands for the operation fails the run even when a later target has some |

## Left out

- Argument parsing with `clap`, logger setup and coloured messages (`src/main.rs:261-279`, `src/lib.rs:103-104`): presentation only.
- TOML and YAML deserialisation: the model takes parsed `Config` and `Target` values. A malformed file makes `main` return an error. This is not modelled.
- Locating and creating the configuration directory with `ProjectDirs`, and canonicalising the configuration path (`src/main.rs:313-331`, `src/lib.rs:106-128`): filesystem I/O. `Multicall.Main` takes the configuration as an `Option`, where `None` means the file is missing.
- Repository discovery with `gix` (`src/main.rs:223-228`, `src/lib.rs:151-152`): the root is an input. `src/main.rs` falls back to `cwd` when no repository is found, and that fallback is modelled. A `gix` failure in `src/lib.rs` is an error that is not modelled.
- Reading `current_dir`, `current_exe` and `argv[0]`, and taking the file name of the executable: I/O. The name is an input.
- Process spawning and the concurrent streaming of stdout and stderr with an indent (`run` in `src/main.rs:230-257`, `Command`/`CommandStream` in `src/lib.rs:79-100`). This is concurrency and OS plumbing. Each command's result comes from the oracle. The `commandstream` crate is not part of this model, so `Driver.RunCommands` passes even an empty token list to the oracle.
- Printing the `Running ...` and `[dryrun]` lines and return codes: output only.
- `src/bin.rs`: a one-line wrapper around `run` with no logic.
- Search.BackSearch: requires the root to be an ancestor of `cwd`. Outside the root, `back_search` either finds the file on the way up to `/` or panics at `parent().unwrap()`. That behaviour is not modelled. `Config.Matches`, `Multicall.SelectTools` and `Multicall.Main` therefore require an ancestor root only for an entry the loop reaches whose backwards search is reached.
- Paths.Join: `Path::join` and `PathBuf::push` are modelled as appending one component. Marker and `detect` names are taken to be single relative names. A name holding `/`, such as `a/b`, names a deeper file. An absolute name makes `join` discard the directory. Neither case is modelled. `Search.BackSearchStaysBelowRoot` and `Driver.NamedFileExistsSpec` hold for single relative names only.
- The `run` oracles are functions. Running the same tool string twice in one list gives the same result both times. A tool whose result changes between runs is not modelled.
- Driver.NamedFileExists: requires a root below `/`. With the root at `/` and the file absent, `nammed_file_exists` loops forever, because popping `/` leaves `/`. That case is not modelled.
- Exit codes are unbounded integers. The operating system's truncation of `exit(code)` to 8 bits is not modelled.

=== FILE: config.dfy ===
/**
 * Configuration entries and their match rule (`StringOrVec`, `Tools`,
 * `File`, `Entry::matches`, `Config::append` of src/config.rs; src/main.rs
 * declares the same types with the same behaviour, without `append`).
 * Values arrive already deserialised.
 *
 * `$PATH` is abstracted as `bins`, the set of names `which::which` resolves.
 */
module Config {
  import opened Wrappers
  import opened Paths
  import opened Search

  /** A field that may be written as one string or as a list of strings. */
  datatype StringOrVec = Single(s: string) | Multiple(v: seq<string>)

  /** `StringOrVec::to_vec`. */
  function ToVec(x: StringOrVec): (r: seq<string>)
    ensures x.Single? ==> r == [x.s]
    ensures x.Multiple? ==> r == x.v
  {
    match x
    case Single(s) => [s]
    case Multiple(v) => v
  }

  /** The command lists an entry declares, one optional field per operation. */
  datatype Tools = Tools(
    format: Option<StringOrVec>,
    check: Option<StringOrVec>,
    build: Option<StringOrVec>,
    test: Option<StringOrVec>,
    run: Option<StringOrVec>)

  /**
   * The `file` table of an entry: marker file names and, when the table
   * sets `search-direction`, where to look for them.
   */
  datatype FileRule = FileRule(name: StringOrVec, direction: Option<Direction>)

  /** The direction serde gives the rule: the one written, else `Direction::default()`. */
  function RuleDirection(rule: FileRule): Direction {
    rule.direction.GetOr(DefaultDirection())
  }

  /** The list stored under a key of the `tools` table; the keys are the field names. */
  function ToolsAt(t: Tools, key: string): Option<StringOrVec> {
    if key == "format" then t.format
    else if key == "check" then t.check
    else if key == "build" then t.build
    else if key == "test" then t.test
    else if key == "run" then t.run
    else None
  }

  /** One `[[entry]]` of the configuration. */
  datatype Entry = Entry(name: string, bin: Option<StringOrVec>, file: Option<FileRule>, tools: Tools)

  datatype Config = Config(entries: seq<Entry>)

  /**
   * The entry has a file rule that searches backwards for at least one
   * name; with no names the loop over them runs no search at all.
   */
  predicate SearchesBackwards(e: Entry) {
    e.file.Some? && RuleDirection(e.file.value) == Backwards && |ToVec(e.file.value.name)| > 0
  }

  /** Every binary the entry names resolves on `$PATH` (vacuous without `bin`). */
  predicate BinsResolve(e: Entry, bins: set<string>) {
    e.bin.Some? ==> forall i :: 0 <= i < |ToVec(e.bin.value)| ==> ToVec(e.bin.value)[i] in bins
  }

  /**
   * `Entry::matches` can be evaluated against `root`.  It reaches
   * `back_search`, which is only defined when `root` is an ancestor of
   * `cwd`, only for a backwards rule whose binaries all resolve: a missing
   * binary returns before any file is searched.
   */
  predicate Evaluable(e: Entry, bins: set<string>, cwd: Path, root: Path) {
    SearchesBackwards(e) && BinsResolve(e, bins) ==> root <= cwd
  }

  /** The loop over `bin`: every name resolves, checked in order, stopping at the first miss. */
  function AllOnPath(names: seq<string>, bins: set<string>): (r: bool)
    ensures r <==> forall i :: 0 <= i < |names| ==> names[i] in bins
  {
    if |names| == 0 then true
    else if names[0] !in bins then false
    else AllOnPath(names[1..], bins)
  }

  /** The loop over `file.name`: every name is found, checked in order, stopping at the first miss. */
  function AllFound(files: set<Path>, cwd: Path, root: Path, direction: Direction, names: seq<string>): (r: bool)
    requires direction == Backwards && |names| > 0 ==> root <= cwd
    ensures r <==> forall i :: 0 <= i < |names| ==> PathSearch(files, cwd, root, direction, names[i])
  {
    if |names| == 0 then true
    else if !PathSearch(files, cwd, root, direction, names[0]) then false
    else AllFound(files, cwd, root, direction, names[1..])
  }

  /**
   * `Entry::matches`.  `root` is the parent of the git directory the
   * caller discovered (or `cwd` itself).  For a linked worktree or a
   * submodule that is not an ancestor of `cwd`, which only a backwards
   * search that is actually reached cannot cope with.
   */
  function Matches(e: Entry, files: set<Path>, bins: set<string>, cwd: Path, root: Path): (r: bool)
    requires Evaluable(e, bins, cwd, root)
    ensures r <==>
      BinsResolve(e, bins)
      && (e.file.Some? ==>
            forall i :: 0 <= i < |ToVec(e.file.value.name)| ==>
              PathSearch(files, cwd, root, RuleDirection(e.file.value), ToVec(e.file.value.name)[i]))
    ensures e.bin.None? && e.file.None? ==> r
  {
    if e.bin.Some? && !AllOnPath(ToVec(e.bin.value), bins) then false
    else if e.file.Some? && !AllFound(files, cwd, root, RuleDirection(e.file.value), ToVec(e.file.value.name)) then false
    else true
  }

  /** A rule that leaves out `search-direction` matches as a forward search would. */
  lemma OmittedDirectionSearchesForwards(e: Entry, files: set<Path>, bins: set<string>, cwd: Path, root: Path)
    requires e.bin.None? && e.file.Some? && e.file.value.direction.None?
    ensures Matches(e, files, bins, cwd, root) <==>
      forall i :: 0 <= i < |ToVec(e.file.value.name)| ==> ForwardSearch(files, cwd, root, ToVec(e.file.value.name)[i])
  {
  }

  /** A backwards rule with no names runs no search, so it matches under any root once the binaries resolve. */
  lemma EmptyBackwardsRuleMatches(e: Entry, files: set<Path>, bins: set<string>, cwd: Path, root: Path)
    requires e.file.Some? && RuleDirection(e.file.value) == Backwards && ToVec(e.file.value.name) == []
    ensures Evaluable(e, bins, cwd, root)
    ensures Matches(e, files, bins, cwd, root) <==> BinsResolve(e, bins)
  {
  }

  /**
   * Under a root that is not an ancestor of `cwd` (a worktree or a
   * submodule), an entry gets an answer unless it reaches a backwards
   * search: its binaries must resolve and every marker file must sit in
   * `root`.
   */
  lemma MatchesOutsideRoot(e: Entry, files: set<Path>, bins: set<string>, cwd: Path, root: Path)
    requires Evaluable(e, bins, cwd, root) && !(root <= cwd)
    ensures Matches(e, files, bins, cwd, root) <==>
      BinsResolve(e, bins)
      && (e.file.Some? ==>
            forall i :: 0 <= i < |ToVec(e.file.value.name)| ==> HasFile(files, root, ToVec(e.file.value.name)[i]))
  {
  }

  /**
   * The two spellings of a field are interchangeable: a single string
   * matches exactly as a list holding only that string, for `bin` and for
   * the file names alike.
   */
  lemma SingleSpellingMatches(e: Entry, x: string, files: set<Path>, bins: set<string>, cwd: Path, root: Path)
    requires e.bin.Some? ==>
      Evaluable(e.(bin := Some(Single(x))), bins, cwd, root) && Evaluable(e.(bin := Some(Multiple([x]))), bins, cwd, root)
    requires e.file.Some? ==>
      && Evaluable(e.(file := Some(e.file.value.(name := Single(x)))), bins, cwd, root)
      && Evaluable(e.(file := Some(e.file.value.(name := Multiple([x])))), bins, cwd, root)
    ensures e.bin.Some? ==>
      Matches(e.(bin := Some(Single(x))), files, bins, cwd, root)
        == Matches(e.(bin := Some(Multiple([x]))), files, bins, cwd, root)
    ensures e.file.Some? ==>
      Matches(e.(file := Some(e.file.value.(name := Single(x)))), files, bins, cwd, root)
        == Matches(e.(file := Some(e.file.value.(name := Multiple([x])))), files, bins, cwd, root)
  {
  }

  /** `Config::append`: this configuration's entries, then `other`'s. */
  function Append(c: Config, other: Config): (r: Config)
    ensures |r.entries| == |c.entries| + |other.entries|
    ensures r.entries[..|c.entries|] == c.entries && r.entries[|c.entries|..] == other.entries
  {
    Config(c.entries + other.entries)
  }
}

=== FILE: driver.dfy ===
/**
 * The library driver of src/lib.rs: the executable's name selects an
 * operation, the first target whose `detect` files are all present is
 * chosen, and its commands run one after another.  Unlike the multicall
 * front end, a non-zero return code does not stop the loop.
 *
 * `existing` is the set of paths at which `Path::try_exists` answers
 * `Ok(true)`; running a command is an oracle from its whitespace tokens
 * to what `CommandStream::run` yields.
 */
module Driver {
  import opened Wrappers
  import opened Paths
  import opened Tokens
  import Multicall

  /** The indent used when the configuration does not set one. */
  const DefaultIndent: string := "  | "

  /** The `settings` table of the configuration. */
  datatype Settings = Settings(indent: Option<string>)

  /** `Settings::default()`. */
  function DefaultSettings(): Settings {
    Settings(Some(DefaultIndent))
  }

  /** The indent put before every line a command prints. */
  function IndentOf(settings: Option<Settings>): (indent: string)
    ensures settings.Some? && settings.value.indent.Some? ==> indent == settings.value.indent.value
    ensures settings.None? || settings.value.indent.None? ==> indent == DefaultIndent
  {
    var s := match settings case Some(s) => s case None => DefaultSettings();
    match s.indent
    case Some(indent) => indent
    case None => DefaultIndent
  }

  /**
   * A missing `settings` table, the default settings and a table without
   * `indent` all give the same indent.
   */
  lemma IndentDefaults()
    ensures IndentOf(None) == IndentOf(Some(DefaultSettings())) == IndentOf(Some(Settings(None))) == DefaultIndent
  {
  }

  // ---------------------------------------------------------------------
  // Looking for a detect file

  /** `PathBuf::pop`: drop the last component; the root stays the root. */
  function Pop(p: Path): (q: Path)
    ensures q <= p
    ensures |p| > 0 ==> |q| == |p| - 1
    ensures |p| == 0 ==> q == []
  {
    if |p| == 0 then p else p[..|p| - 1]
  }

  /** Popping undoes pushing a name. */
  lemma PopJoin(dir: Path, name: string)
    ensures Pop(Join(dir, name)) == dir
  {
  }

  /**
   * `nammed_file_exists`: look in `dir`, then pop one component at a time
   * while the result still lies inside `root`.  `nammed_file_exists`
   * never stops when `root` is `/` and the file is absent (popping `/`
   * leaves `/`), so the model requires a root below `/`.
   */
  function NamedFileExists(file: string, dir: Path, root: Path, existing: set<Path>): (r: Option<Path>)
    requires root != []
    ensures r.Some? ==> r.value in existing
    decreases |dir|
  {
    var possible := Join(dir, file);
    if possible in existing then Some(possible)
    else
      var parent := Pop(dir);
      if !(root <= parent) then None
      else NamedFileExists(file, parent, root, existing)
  }

  /**
   * The directories the search looks in: `cwd[..k]` is looked at when it
   * is `cwd` itself or an ancestor of `cwd` that lies inside `root`.
   */
  ghost predicate Probed(cwd: Path, root: Path, k: int) {
    k == |cwd| || (root <= cwd && |root| <= k <= |cwd|)
  }

  /**
   * The search answers with the deepest looked-at directory holding the
   * file, and `None` exactly when no looked-at directory holds it.
   */
  lemma {:induction false} NamedFileExistsSpec(file: string, cwd: Path, root: Path, existing: set<Path>)
    requires root != []
    ensures var r := NamedFileExists(file, cwd, root, existing);
      && (r.None? <==> forall k :: 0 <= k <= |cwd| && Probed(cwd, root, k) ==> Join(cwd[..k], file) !in existing)
      && (r.Some? ==>
            exists k :: 0 <= k <= |cwd| && Probed(cwd, root, k) && r.value == Join(cwd[..k], file)
              && forall j :: k < j <= |cwd| ==> Join(cwd[..j], file) !in existing)
    decreases |cwd|
  {
    var r := NamedFileExists(file, cwd, root, existing);
    assert cwd[..|cwd|] == cwd;
    if Join(cwd, file) in existing {
    } else {
      var parent := Pop(cwd);
      if !(root <= parent) {
        forall k | 0 <= k <= |cwd| && Probed(cwd, root, k)
          ensures Join(cwd[..k], file) !in existing
        {
        }
      } else {
        NamedFileExistsSpec(file, parent, root, existing);
        assert |parent| == |cwd| - 1 && parent == cwd[..|cwd| - 1];
        assert root <= cwd;
        forall k | 0 <= k <= |parent|
          ensures parent[..k] == cwd[..k]
          ensures Probed(parent, root, k) <==> Probed(cwd, root, k)
        {
        }
        if r.Some? {
          var k :| 0 <= k <= |parent| && Probed(parent, root, k) && r.value == Join(parent[..k], file)
            && forall j :: k < j <= |parent| ==> Join(parent[..j], file) !in existing;
          assert Probed(cwd, root, k) && r.value == Join(cwd[..k], file);
          forall j | k < j <= |cwd|
            ensures Join(cwd[..j], file) !in existing
          {
            if j < |cwd| {
              assert parent[..j] == cwd[..j];
            }
          }
        }
      }
    }
  }

  /** Outside the repository only `cwd` itself is looked at. */
  lemma NamedFileExistsOutside(file: string, cwd: Path, root: Path, existing: set<Path>)
    requires root != [] && !(root <= cwd)
    ensures NamedFileExists(file, cwd, root, existing)
         == if Join(cwd, file) in existing then Some(Join(cwd, file)) else None
  {
    NamedFileExistsSpec(file, cwd, root, existing);
    assert cwd[..|cwd|] == cwd;
  }

  // ---------------------------------------------------------------------
  // Targets

  /** The operations the executable's name can select. */
  datatype Operation = Check | Build | Test | Run

  /** The multicall command with the same name as an operation. */
  function AsCommand(op: Operation): Multicall.Command {
    match op
    case Check => Multicall.Check
    case Build => Multicall.Build
    case Test => Multicall.Test
    case Run => Multicall.Run
  }

  /** The executable's file name selects the operation; any other name is an error. */
  function OperationFromExecName(name: string): (op: Option<Operation>)
    ensures op == Some(Check) <==> name == "c"
    ensures op == Some(Build) <==> name == "b"
    ensures op == Some(Test) <==> name == "t"
    ensures op == Some(Run) <==> name == "r"
  {
    match name
    case "c" => Some(Check)
    case "b" => Some(Build)
    case "t" => Some(Test)
    case "r" => Some(Run)
    case _ => None
  }

  /** One entry of `targets`: the files that identify it and its commands per operation. */
  datatype Target = Target(
    name: string,
    detect: seq<string>,
    check: Option<seq<string>>,
    build: Option<seq<string>>,
    test: Option<seq<string>>,
    run: Option<seq<string>>)

  /** The list stored under a key of a target; the keys are the field names. */
  function CommandsAt(t: Target, key: string): Option<seq<string>> {
    if key == "check" then t.check
    else if key == "build" then t.build
    else if key == "test" then t.test
    else if key == "run" then t.run
    else None
  }

  /** The commands a target declares for an operation: the list under the operation's long name. */
  function CommandsFor(t: Target, op: Operation): (r: Option<seq<string>>)
    ensures r == CommandsAt(t, Multicall.LongName(AsCommand(op)))
  {
    match op
    case Check => t.check
    case Build => t.build
    case Test => t.test
    case Run => t.run
  }

  /**
   * The driver accepts only the short names of the four operations it
   * has; the multicall front end accepts each of them for the same
   * command. The driver rejects `f` and every long name, which the
   * multicall front end accepts.
   */
  lemma ExecNamesAreShortNames(name: string, op: Operation)
    ensures OperationFromExecName(name) == Some(op) <==>
      name == Multicall.ShortName(AsCommand(op)) && Multicall.ParseCommand(name) == Some(AsCommand(op))
    ensures Multicall.ParseCommand("f") == Some(Multicall.Format) && OperationFromExecName("f").None?
    ensures forall c :: Multicall.ParseCommand(Multicall.LongName(c)) == Some(c)
                     && OperationFromExecName(Multicall.LongName(c)).None?
  {
  }

  /** The loop over `detect`: every file is found, stopping at the first that is not. */
  function AllDetected(names: seq<string>, cwd: Path, root: Path, existing: set<Path>): (r: bool)
    requires root != []
    ensures r <==> forall i :: 0 <= i < |names| ==> NamedFileExists(names[i], cwd, root, existing).Some?
  {
    if |names| == 0 then true
    else if NamedFileExists(names[0], cwd, root, existing).None? then false
    else AllDetected(names[1..], cwd, root, existing)
  }

  predicate Detected(t: Target, cwd: Path, root: Path, existing: set<Path>)
    requires root != []
  {
    AllDetected(t.detect, cwd, root, existing)
  }

  /** The loop over `targets`: the first detected target; the break after it skips the rest. */
  function SelectTarget(targets: seq<Target>, cwd: Path, root: Path, existing: set<Path>): (r: Option<Target>)
    requires root != []
    ensures r.None? <==> forall i :: 0 <= i < |targets| ==> !Detected(targets[i], cwd, root, existing)
    ensures r.Some? ==>
      exists i :: 0 <= i < |targets| && r.value == targets[i] && Detected(targets[i], cwd, root, existing)
        && forall j :: 0 <= j < i ==> !Detected(targets[j], cwd, root, existing)
    decreases |targets|
  {
    if |targets| == 0 then None
    else if Detected(targets[0], cwd, root, existing) then Some(targets[0])
    else
      var r := SelectTarget(targets[1..], cwd, root, existing);
      assert forall i :: 1 <= i < |targets| ==> targets[i] == targets[1..][i - 1];
      if r.Some? then
        var i :| 0 <= i < |targets[1..]| && r.value == targets[1..][i] && Detected(targets[1..][i], cwd, root, existing)
          && forall j :: 0 <= j < i ==> !Detected(targets[1..][j], cwd, root, existing);
        assert r.value == targets[i + 1];
        r
      else
        r
  }

  // ---------------------------------------------------------------------
  // Running the commands

  /** What `CommandStream::run` yields: the return code, or an error. */
  datatype StreamResult = ReturnCode(code: int) | StreamError

  /** How the driver ends. */
  datatype LibOutcome =
    | Completed               // `run` returns Ok(())
    | UnknownExecName         // the executable's name selects no operation
    | NoCommands(target: string) // the detected target declares nothing for the operation
    | CommandFailed           // a command's stream reported an error

  /** The commands run, as token lists, in order, and how the driver ended. */
  datatype LibTrace = LibTrace(invoked: seq<seq<string>>, outcome: LibOutcome)

  /** The loop over the commands: each runs in turn whatever code it returns; only an error stops it. */
  function RunCommands(commands: seq<string>, run: seq<string> -> StreamResult): (t: LibTrace)
    ensures t.outcome == Completed || t.outcome == CommandFailed
    ensures |t.invoked| <= |commands|
    decreases |commands|
  {
    if |commands| == 0 then LibTrace([], Completed)
    else
      var args := SplitWhitespace(commands[0]);
      match run(args)
      case StreamError => LibTrace([args], CommandFailed)
      case ReturnCode(_) =>
        var rest := RunCommands(commands[1..], run);
        LibTrace([args] + rest.invoked, rest.outcome)
  }

  /**
   * Command `i` runs as the tokens of its string, every command before the
   * last one run returned a code (of any value).
   */
  lemma {:induction false} RunCommandsSpec(commands: seq<string>, run: seq<string> -> StreamResult)
    ensures var t := RunCommands(commands, run);
      && (forall i :: 0 <= i < |t.invoked| ==> t.invoked[i] == SplitWhitespace(commands[i]))
      && (forall i :: 0 <= i < |t.invoked| - 1 ==> run(t.invoked[i]).ReturnCode?)
    decreases |commands|
  {
    if |commands| > 0 && run(SplitWhitespace(commands[0])).ReturnCode? {
      var args := SplitWhitespace(commands[0]);
      var rest := RunCommands(commands[1..], run);
      RunCommandsSpec(commands[1..], run);
      var t := RunCommands(commands, run);
      assert t == LibTrace([args] + rest.invoked, rest.outcome);
      forall i | 1 <= i < |t.invoked|
        ensures t.invoked[i] == rest.invoked[i - 1] && commands[i] == commands[1..][i - 1]
      {
      }
    }
  }

  /** The loop completes exactly when every command ran and returned a code, whatever its value. */
  lemma {:induction false} RunCommandsCompletes(commands: seq<string>, run: seq<string> -> StreamResult)
    ensures var t := RunCommands(commands, run);
      t.outcome == Completed <==>
        |t.invoked| == |commands| && forall i :: 0 <= i < |commands| ==> run(t.invoked[i]).ReturnCode?
    decreases |commands|
  {
    if |commands| > 0 && run(SplitWhitespace(commands[0])).ReturnCode? {
      var args := SplitWhitespace(commands[0]);
      var rest := RunCommands(commands[1..], run);
      RunCommandsCompletes(commands[1..], run);
      var t := RunCommands(commands, run);
      assert t == LibTrace([args] + rest.invoked, rest.outcome);
      if rest.outcome == Completed {
        forall i | 0 <= i < |commands|
          ensures run(t.invoked[i]).ReturnCode?
        {
          if i > 0 {
            assert t.invoked[i] == rest.invoked[i - 1];
          }
        }
      }
      if |t.invoked| == |commands| && forall i :: 0 <= i < |commands| ==> run(t.invoked[i]).ReturnCode? {
        forall i | 0 <= i < |commands[1..]|
          ensures run(rest.invoked[i]).ReturnCode?
        {
          assert rest.invoked[i] == t.invoked[i + 1];
        }
      }
    } else if |commands| > 0 {
      var t := RunCommands(commands, run);
      assert t.invoked == [SplitWhitespace(commands[0])] && t.outcome == CommandFailed;
      assert t.invoked[0] == SplitWhitespace(commands[0]);
    }
  }

  /** The loop stops early only on an error of the last command run. */
  lemma {:induction false} RunCommandsFails(commands: seq<string>, run: seq<string> -> StreamResult)
    ensures var t := RunCommands(commands, run);
      t.outcome == CommandFailed ==> |t.invoked| > 0 && run(t.invoked[|t.invoked| - 1]).StreamError?
    decreases |commands|
  {
    if |commands| > 0 && run(SplitWhitespace(commands[0])).ReturnCode? {
      var rest := RunCommands(commands[1..], run);
      RunCommandsFails(commands[1..], run);
      var t := RunCommands(commands, run);
      assert t == LibTrace([SplitWhitespace(commands[0])] + rest.invoked, rest.outcome);
      if |rest.invoked| > 0 {
        assert t.invoked[|t.invoked| - 1] == rest.invoked[|rest.invoked| - 1];
      }
    }
  }

  /**
   * `run` from the operation onwards.  `root` is the repository root `gix`
   * found for the working directory `cwd`.
   */
  function Drive(execName: string, targets: seq<Target>, cwd: Path, root: Path, existing: set<Path>,
                 run: seq<string> -> StreamResult): (t: LibTrace)
    requires root != []
    ensures OperationFromExecName(execName).None? ==> t == LibTrace([], UnknownExecName)
    ensures OperationFromExecName(execName).Some? ==>
      var target := SelectTarget(targets, cwd, root, existing);
      && (target.None? ==> t == LibTrace([], Completed))
      && (target.Some? && CommandsFor(target.value, OperationFromExecName(execName).value).None? ==>
            t == LibTrace([], NoCommands(target.value.name)))
      && (target.Some? && CommandsFor(target.value, OperationFromExecName(execName).value).Some? ==>
            t == RunCommands(CommandsFor(target.value, OperationFromExecName(execName).value).value, run))
  {
    match OperationFromExecName(execName)
    case None => LibTrace([], UnknownExecName)
    case Some(op) =>
      match SelectTarget(targets, cwd, root, existing)
      case None => LibTrace([], Completed)
      case Some(target) =>
        match CommandsFor(target, op)
        case None => LibTrace([], NoCommands(target.name))
        case Some(commands) => RunCommands(commands, run)
  }

  /** With no stream errors, every command runs, whatever the return codes. */
  lemma RunCommandsIgnoresCodes(commands: seq<string>, run: seq<string> -> StreamResult)
    requires forall i :: 0 <= i < |commands| ==> run(SplitWhitespace(commands[i])).ReturnCode?
    ensures RunCommands(commands, run).outcome == Completed
    ensures |RunCommands(commands, run).invoked| == |commands|
  {
    RunCommandsSpec(commands, run);
    RunCommandsCompletes(commands, run);
  }

  /**
   * The first detected target decides: when it declares no commands for the
   * operation the driver fails, even if a later target would have some.
   */
  lemma DriveNoFallthrough(execName: string, first: Target, later: seq<Target>, cwd: Path, root: Path,
                           existing: set<Path>, run: seq<string> -> StreamResult)
    requires root != []
    requires OperationFromExecName(execName).Some?
    requires Detected(first, cwd, root, existing)
    requires CommandsFor(first, OperationFromExecName(execName).value).None?
    ensures Drive(execName, [first] + later, cwd, root, existing, run) == LibTrace([], NoCommands(first.name))
  {
  }
}

=== FILE: multicall.dfy ===
/**
 * The multicall front end of src/main.rs: the program name selects a
 * command, the first matching entry that declares tools for it is chosen,
 * and its tools run one after another, stopping at the first failure.
 *
 * Running a tool is an oracle `run` from the invocation to its result; the
 * process exit is returned as an `Outcome` instead of ending the program.
 */
module Multicall {
  import opened Wrappers
  import opened Paths
  import opened Config
  import opened Tokens
  import opened Text

  /** The five operations, in declaration (and iteration) order. */
  datatype Command = Format | Check | Build | Test | Run

  function AllCommands(): seq<Command> {
    [Format, Check, Build, Test, Run]
  }

  /** The one-letter program name of each command. */
  function ShortName(c: Command): string {
    match c
    case Format => "f"
    case Check => "c"
    case Build => "b"
    case Test => "t"
    case Run => "r"
  }

  /** The spelled-out program name of each command. */
  function LongName(c: Command): string {
    match c
    case Format => "format"
    case Check => "check"
    case Build => "build"
    case Test => "test"
    case Run => "run"
  }

  /** `Command::from_str`; `None` is its `CommandError`. */
  function ParseCommand(s: string): (r: Option<Command>)
    ensures r.Some? ==> s == ShortName(r.value) || s == LongName(r.value)
    ensures r.None? ==> forall c :: s != ShortName(c) && s != LongName(c)
  {
    if s == "f" || s == "format" then Some(Format)
    else if s == "c" || s == "check" then Some(Check)
    else if s == "b" || s == "build" then Some(Build)
    else if s == "t" || s == "test" then Some(Test)
    else if s == "r" || s == "run" then Some(Run)
    else None
  }

  /** `Display for Command`: the short name, a slash, the long name. */
  function Display(c: Command): (d: string)
    ensures d == ShortName(c) + "/" + LongName(c)
  {
    match c
    case Format => "f/format"
    case Check => "c/check"
    case Build => "b/build"
    case Test => "t/test"
    case Run => "r/run"
  }

  /** A name parses to a command exactly when it is that command's short or long name. */
  lemma ParseCommandNames(s: string, c: Command)
    ensures ParseCommand(s) == Some(c) <==> s == ShortName(c) || s == LongName(c)
  {
  }

  /** Every string other than the ten names is rejected. */
  lemma ParseCommandRejects(s: string)
    ensures ParseCommand(s).None? <==> forall c :: s != ShortName(c) && s != LongName(c)
  {
  }

  /** The displayed form is `short/long`, and both halves parse back to the command. */
  lemma DisplayNamesParse(c: Command)
    ensures Display(c) == ShortName(c) + "/" + LongName(c)
    ensures ParseCommand(ShortName(c)) == Some(c) && ParseCommand(LongName(c)) == Some(c)
  {
  }

  // ---------------------------------------------------------------------
  // The list of valid names printed in error messages

  /** The displayed form of each command, in order. */
  function DisplayAll(cs: seq<Command>): (ds: seq<string>)
    ensures |ds| == |cs| && forall i :: 0 <= i < |cs| ==> ds[i] == Display(cs[i])
  {
    seq(|cs|, i requires 0 <= i < |cs| => Display(cs[i]))
  }

  /**
   * The loop that builds the `options` string: an opening bracket, each
   * option followed by ", " unless it is the last, a closing bracket.
   */
  method BuildOptions(options: seq<string>) returns (s: string)
    ensures s == "[" + JoinWith(options, ", ") + "]"
  {
    var lastIndex := |options| - 1;
    s := "[";
    var i := 0;
    while i < |options|
      invariant 0 <= i <= |options|
      invariant s == "[" + JoinWith(options[..i], ", ") + (if 0 < i < |options| then ", " else "")
    {
      assert options[..i + 1][..i] == options[..i];
      s := s + options[i];
      if i < lastIndex {
        s := s + ", ";
      }
      i := i + 1;
    }
    assert options[..|options|] == options;
    s := s + "]";
  }

  /**
   * The options text is the five displayed commands in declaration order,
   * separated by ", " and bracketed: `[f/format, c/check, b/build, t/test, r/run]`.
   */
  lemma OptionsText()
    ensures "[" + JoinWith(DisplayAll(AllCommands()), ", ") + "]"
         == "[" + Display(Format) + ", " + Display(Check) + ", " + Display(Build)
              + ", " + Display(Test) + ", " + Display(Run) + "]"
  {
    var ds := DisplayAll(AllCommands());
    assert ds == [Display(Format), Display(Check), Display(Build), Display(Test), Display(Run)];
    JoinFive(Display(Format), Display(Check), Display(Build), Display(Test), Display(Run), ", ");
  }

  // ---------------------------------------------------------------------
  // Tool selection

  /** The tools an entry declares for a command: the list under the command's long name. */
  function ToolsFor(t: Tools, c: Command): (r: Option<StringOrVec>)
    ensures r == ToolsAt(t, LongName(c))
  {
    match c
    case Format => t.format
    case Check => t.check
    case Build => t.build
    case Test => t.test
    case Run => t.run
  }

  /** The entry matches and declares tools for the command. */
  predicate Yields(e: Entry, c: Command, files: set<Path>, bins: set<string>, cwd: Path, root: Path)
    requires Evaluable(e, bins, cwd, root)
  {
    Matches(e, files, bins, cwd, root) && ToolsFor(e.tools, c).Some?
  }

  /** The loop evaluates `e` and moves past it. */
  predicate PassedOver(e: Entry, c: Command, files: set<Path>, bins: set<string>, cwd: Path, root: Path) {
    Evaluable(e, bins, cwd, root) && !Yields(e, c, files, bins, cwd, root)
  }

  /** The loop evaluates `e` and stops with its tools. */
  predicate Selects(e: Entry, c: Command, files: set<Path>, bins: set<string>, cwd: Path, root: Path) {
    Evaluable(e, bins, cwd, root) && Yields(e, c, files, bins, cwd, root)
  }

  /**
   * Every entry the loop evaluates can be evaluated against `root`: the
   * entries up to and including the first that yields tools.  Entries
   * after it are never looked at, whatever their rules.
   */
  predicate EvaluableUntilSelected(entries: seq<Entry>, c: Command, files: set<Path>, bins: set<string>, cwd: Path, root: Path)
    decreases |entries|
  {
    |entries| == 0
    || (&& Evaluable(entries[0], bins, cwd, root)
        && (!Yields(entries[0], c, files, bins, cwd, root) ==> EvaluableUntilSelected(entries[1..], c, files, bins, cwd, root)))
  }

  /**
   * The loop over `config.entries`.  The variable `tools` is overwritten by
   * every matching entry and the loop breaks once it holds a list, so it
   * ends holding the list of the first yielding entry, or nothing.
   */
  function SelectTools(entries: seq<Entry>, c: Command, files: set<Path>, bins: set<string>, cwd: Path, root: Path)
    : (r: Option<StringOrVec>)
    requires EvaluableUntilSelected(entries, c, files, bins, cwd, root)
    ensures r.None? <==> forall i :: 0 <= i < |entries| ==> PassedOver(entries[i], c, files, bins, cwd, root)
    ensures r.Some? ==>
      exists i :: 0 <= i < |entries| && Selects(entries[i], c, files, bins, cwd, root)
        && r == ToolsFor(entries[i].tools, c)
        && forall j :: 0 <= j < i ==> PassedOver(entries[j], c, files, bins, cwd, root)
    decreases |entries|
  {
    if |entries| == 0 then None
    else if Matches(entries[0], files, bins, cwd, root) && ToolsFor(entries[0].tools, c).Some? then
      ToolsFor(entries[0].tools, c)
    else
      assert forall i :: 1 <= i < |entries| ==> entries[i] == entries[1..][i - 1];
      var r := SelectTools(entries[1..], c, files, bins, cwd, root);
      if r.Some? then
        var i :| 0 <= i < |entries[1..]| && Selects(entries[1..][i], c, files, bins, cwd, root)
          && r == ToolsFor(entries[1..][i].tools, c)
          && forall j :: 0 <= j < i ==> PassedOver(entries[1..][j], c, files, bins, cwd, root);
        assert PassedOver(entries[0], c, files, bins, cwd, root);
        assert Selects(entries[i + 1], c, files, bins, cwd, root);
        r
      else
        r
  }

  /**
   * An entry with no `bin` and no `file` that declares tools for the
   * command is selected whatever follows it: later entries are never
   * evaluated, so even backwards rules under a worktree's root are safe.
   */
  lemma CatchAllShieldsLaterEntries(x: Entry, later: seq<Entry>, c: Command, files: set<Path>, bins: set<string>,
                                    cwd: Path, root: Path)
    requires x.bin.None? && x.file.None? && ToolsFor(x.tools, c).Some?
    ensures EvaluableUntilSelected([x] + later, c, files, bins, cwd, root)
    ensures SelectTools([x] + later, c, files, bins, cwd, root) == ToolsFor(x.tools, c)
  {
  }

  /**
   * Appending a second configuration never overrides the first: its
   * entries are consulted only when no entry of the first yields tools.
   */
  lemma {:induction false} SelectAfterAppend(a: Config, b: Config, c: Command, files: set<Path>, bins: set<string>, cwd: Path, root: Path)
    requires EvaluableUntilSelected(a.entries, c, files, bins, cwd, root)
    requires SelectTools(a.entries, c, files, bins, cwd, root).None? ==> EvaluableUntilSelected(b.entries, c, files, bins, cwd, root)
    ensures EvaluableUntilSelected(Append(a, b).entries, c, files, bins, cwd, root)
    ensures SelectTools(Append(a, b).entries, c, files, bins, cwd, root)
         == if SelectTools(a.entries, c, files, bins, cwd, root).Some?
            then SelectTools(a.entries, c, files, bins, cwd, root)
            else SelectTools(b.entries, c, files, bins, cwd, root)
    decreases |a.entries|
  {
    var ab := Append(a, b).entries;
    assert forall i :: 0 <= i < |ab| ==> ab[i] == if i < |a.entries| then a.entries[i] else b.entries[i - |a.entries|];
    if |a.entries| > 0 {
      assert ab[0] == a.entries[0];
      assert ab[1..] == Append(Config(a.entries[1..]), b).entries;
      if !Yields(a.entries[0], c, files, bins, cwd, root) {
        assert SelectTools(a.entries, c, files, bins, cwd, root) == SelectTools(a.entries[1..], c, files, bins, cwd, root);
        SelectAfterAppend(Config(a.entries[1..]), b, c, files, bins, cwd, root);
      }
    } else {
      assert ab == b.entries;
    }
  }

  // ---------------------------------------------------------------------
  // Running the tools

  /** A program name and its arguments. */
  datatype Invocation = Invocation(program: string, args: seq<string>)

  /** What `run` reports: the child's exit code, or an error (`which` failed, spawning failed, the stream broke, no exit code). */
  datatype RunResult = Code(code: int) | RunError

  /** How the program ends. */
  datatype Outcome =
    | Finished          // main returns Ok(())
    | Exited(code: int) // std::process::exit(code)
    | Failed            // main returns an error through `?`
    | Panicked          // `parts[0]` on a blank tool string

  /** The process exit status of each outcome. */
  function ExitStatus(o: Outcome): int {
    match o
    case Finished => 0
    case Exited(c) => c
    case Failed => 1
    case Panicked => 101
  }

  /** The invocations made, in order, and how the program ended. */
  datatype Trace = Trace(invoked: seq<Invocation>, outcome: Outcome)

  /** The first whitespace token is the program, the rest its arguments; a blank tool has none. */
  function ToInvocation(tool: string): (r: Option<Invocation>)
    ensures r.None? <==> IsBlank(tool)
    ensures r.Some? ==> [r.value.program] + r.value.args == SplitWhitespace(tool)
  {
    var parts := SplitWhitespace(tool);
    if |parts| == 0 then None else Some(Invocation(parts[0], parts[1..]))
  }

  /**
   * The loop over the selected tools.  In dry-run mode each tool is only
   * announced.  Otherwise tools run in order and the first that does not
   * report exit code 0 ends the program; later tools never run.
   */
  function RunTools(tools: seq<string>, dryRun: bool, run: Invocation -> RunResult): (t: Trace)
    ensures dryRun ==> t == Trace([], Finished)
    ensures |t.invoked| <= |tools|
    decreases |tools|
  {
    if |tools| == 0 then Trace([], Finished)
    else if dryRun then RunTools(tools[1..], dryRun, run)
    else
      match ToInvocation(tools[0])
      case None => Trace([], Panicked)
      case Some(inv) =>
        match run(inv)
        case RunError => Trace([inv], Failed)
        case Code(c) =>
          if c != 0 then Trace([inv], Exited(c))
          else
            var rest := RunTools(tools[1..], dryRun, run);
            Trace([inv] + rest.invoked, rest.outcome)
  }

  /** Tool `i` is run as the invocation its string splits into, and every tool before the last one run exited with 0. */
  lemma {:induction false} RunToolsInOrder(tools: seq<string>, run: Invocation -> RunResult)
    ensures var t := RunTools(tools, false, run);
      && (forall i :: 0 <= i < |t.invoked| ==> ToInvocation(tools[i]) == Some(t.invoked[i]))
      && (forall i :: 0 <= i < |t.invoked| - 1 ==> run(t.invoked[i]) == Code(0))
    decreases |tools|
  {
    if |tools| > 0 && ToInvocation(tools[0]).Some? && run(ToInvocation(tools[0]).value) == Code(0) {
      var rest := RunTools(tools[1..], false, run);
      RunToolsInOrder(tools[1..], run);
      var t := RunTools(tools, false, run);
      assert t.invoked == [ToInvocation(tools[0]).value] + rest.invoked;
      forall i | 1 <= i < |t.invoked|
        ensures t.invoked[i] == rest.invoked[i - 1] && tools[i] == tools[1..][i - 1]
      {
      }
    }
  }

  /**
   * How the loop ends: normally exactly when every tool ran and exited
   * with 0; with `exit(code)` only for a non-zero code of the last tool
   * run; with an error only when the last tool run could not be run; with
   * a panic only at a blank tool string.
   */
  lemma {:induction false} RunToolsOutcome(tools: seq<string>, run: Invocation -> RunResult)
    ensures var t := RunTools(tools, false, run);
      && (t.outcome == Finished <==>
            |t.invoked| == |tools| && forall i :: 0 <= i < |tools| ==> run(t.invoked[i]) == Code(0))
      && (t.outcome.Exited? ==>
            t.outcome.code != 0 && |t.invoked| > 0 && run(t.invoked[|t.invoked| - 1]) == Code(t.outcome.code))
      && (t.outcome.Failed? ==> |t.invoked| > 0 && run(t.invoked[|t.invoked| - 1]) == RunError)
      && (t.outcome.Panicked? ==>
            && |t.invoked| < |tools| && ToInvocation(tools[|t.invoked|]).None?
            && forall i :: 0 <= i < |t.invoked| ==> run(t.invoked[i]) == Code(0))
    decreases |tools|
  {
    if |tools| > 0 && ToInvocation(tools[0]).Some? && run(ToInvocation(tools[0]).value) == Code(0) {
      var inv := ToInvocation(tools[0]).value;
      var rest := RunTools(tools[1..], false, run);
      RunToolsOutcome(tools[1..], run);
      var t := RunTools(tools, false, run);
      assert t.invoked == [inv] + rest.invoked && t.outcome == rest.outcome;
      forall i | 1 <= i < |t.invoked|
        ensures t.invoked[i] == rest.invoked[i - 1]
      {
      }
      if rest.outcome == Finished {
        forall i | 0 <= i < |tools|
          ensures run(t.invoked[i]) == Code(0)
        {
          if i > 0 {
            assert t.invoked[i] == rest.invoked[i - 1];
          }
        }
      }
      if |t.invoked| == |tools| && forall i :: 0 <= i < |tools| ==> run(t.invoked[i]) == Code(0) {
        forall i | 0 <= i < |tools[1..]|
          ensures run(rest.invoked[i]) == Code(0)
        {
          assert rest.invoked[i] == t.invoked[i + 1];
        }
      }
      if |rest.invoked| > 0 {
        assert t.invoked[|t.invoked| - 1] == rest.invoked[|rest.invoked| - 1];
      }
      if rest.outcome.Panicked? {
        assert tools[|t.invoked|] == tools[1..][|rest.invoked|];
        forall i | 0 <= i < |t.invoked|
          ensures run(t.invoked[i]) == Code(0)
        {
          if i > 0 {
            assert t.invoked[i] == rest.invoked[i - 1];
          }
        }
      }
    } else if |tools| > 0 && ToInvocation(tools[0]).Some? {
      var inv := ToInvocation(tools[0]).value;
      var t := RunTools(tools, false, run);
      assert t.invoked == [inv] && t.invoked[0] == inv && run(inv) != Code(0);
      assert t.outcome != Finished;
    }
  }

  /**
   * A single tool string, written as a string or as a one-element list,
   * runs alone: a blank one panics, otherwise its invocation is made once
   * and its result decides the outcome.
   */
  lemma SingleToolSpellings(tool: string, run: Invocation -> RunResult)
    ensures RunTools(ToVec(Single(tool)), false, run) == RunTools(ToVec(Multiple([tool])), false, run)
    ensures RunTools(ToVec(Single(tool)), false, run) ==
      match ToInvocation(tool)
      case None => Trace([], Panicked)
      case Some(inv) =>
        Trace([inv], match run(inv)
                     case RunError => Failed
                     case Code(c) => if c == 0 then Finished else Exited(c))
  {
  }

  /** With every tool succeeding, all of them run, in order, and the program finishes normally. */
  lemma RunToolsAllSucceed(tools: seq<string>, run: Invocation -> RunResult)
    requires forall i :: 0 <= i < |tools| ==> ToInvocation(tools[i]).Some?
    requires forall i :: 0 <= i < |tools| ==> run(ToInvocation(tools[i]).value) == Code(0)
    ensures RunTools(tools, false, run).outcome == Finished
    ensures |RunTools(tools, false, run).invoked| == |tools|
  {
  }

  /**
   * Fail fast: when tool `k` is the first whose exit code is not 0, tools
   * `0..k` run and nothing after, and the program exits with that code.
   */
  lemma RunToolsStopsAtFirstFailure(tools: seq<string>, run: Invocation -> RunResult, k: nat, code: int)
    requires k < |tools| && code != 0
    requires forall i :: 0 <= i <= k ==> ToInvocation(tools[i]).Some?
    requires forall i :: 0 <= i < k ==> run(ToInvocation(tools[i]).value) == Code(0)
    requires run(ToInvocation(tools[k]).value) == Code(code)
    ensures RunTools(tools, false, run).outcome == Exited(code)
    ensures |RunTools(tools, false, run).invoked| == k + 1
  {
    RunToolsInOrder(tools, run);
    RunToolsOutcome(tools, run);
  }

  // ---------------------------------------------------------------------
  // The whole program

  /**
   * `main` from the program name onwards.  `config` is the parsed user
   * configuration file, or `None` when it does not exist; `discovered` is
   * the parent of the git directory `gix` finds for `cwd`, or `None`
   * outside a repository, in which case `cwd` serves as the root.
   */
  function Main(programName: string, dryRun: bool, config: Option<Config>, cwd: Path, discovered: Option<Path>,
                files: set<Path>, bins: set<string>, run: Invocation -> RunResult): (t: Trace)
    requires config.Some? && ParseCommand(programName).Some? ==>
      EvaluableUntilSelected(config.value.entries, ParseCommand(programName).value, files, bins, cwd, discovered.GetOr(cwd))
    ensures (programName == "cbtr" || ParseCommand(programName).None?) ==> t == Trace([], Exited(2))
    ensures ParseCommand(programName).Some? && programName != "cbtr" && config.None? ==> t == Trace([], Exited(1))
    ensures ParseCommand(programName).Some? && programName != "cbtr" && config.Some? ==>
      var root := discovered.GetOr(cwd);
      var tools := SelectTools(config.value.entries, ParseCommand(programName).value, files, bins, cwd, root);
      t == if tools.None? then Trace([], Exited(1)) else RunTools(ToVec(tools.value), dryRun, run)
  {
    if programName == "cbtr" then Trace([], Exited(2))
    else match ParseCommand(programName)
      case None => Trace([], Exited(2))
      case Some(command) =>
        match config
        case None => Trace([], Exited(1))
        case Some(cfg) =>
          var root := match discovered case Some(r) => r case None => cwd;
          match SelectTools(cfg.entries, command, files, bins, cwd, root)
          case None => Trace([], Exited(1))
          case Some(tools) => RunTools(ToVec(tools), dryRun, run)
  }

  /**
   * The process exits with status 0 exactly when the name is a command, a
   * configuration exists, some entry yields tools, and the run is a dry run
   * or every tool ran and exited with 0.
   */
  lemma MainSucceeds(programName: string, dryRun: bool, config: Option<Config>, cwd: Path, discovered: Option<Path>,
                     files: set<Path>, bins: set<string>, run: Invocation -> RunResult)
    requires config.Some? && ParseCommand(programName).Some? ==>
      EvaluableUntilSelected(config.value.entries, ParseCommand(programName).value, files, bins, cwd, discovered.GetOr(cwd))
    ensures var t := Main(programName, dryRun, config, cwd, discovered, files, bins, run);
      ExitStatus(t.outcome) == 0 <==>
        && programName != "cbtr" && ParseCommand(programName).Some? && config.Some?
        && var tools := SelectTools(config.value.entries, ParseCommand(programName).value, files, bins, cwd,
                                    discovered.GetOr(cwd));
           && tools.Some?
           && (dryRun || (|t.invoked| == |ToVec(tools.value)| && forall i :: 0 <= i < |t.invoked| ==> run(t.invoked[i]) == Code(0)))
  {
    var t := Main(programName, dryRun, config, cwd, discovered, files, bins, run);
    if programName != "cbtr" && ParseCommand(programName).Some? && config.Some? {
      var tools := SelectTools(config.value.entries, ParseCommand(programName).value, files, bins, cwd,
                               discovered.GetOr(cwd));
      if tools.Some? && !dryRun {
        RunToolsOutcome(ToVec(tools.value), run);
      }
    }
  }

  /**
   * An entry whose binary is not on `$PATH` is passed over before any of
   * its files is searched, whatever the root, so a later catch-all entry
   * (no `bin`, no `file`) supplies the tools.
   */
  lemma MissingBinaryFallsThrough(a: Entry, b: Entry, c: Command, files: set<Path>, bins: set<string>, cwd: Path, root: Path)
    requires a.bin.Some? && exists i :: 0 <= i < |ToVec(a.bin.value)| && ToVec(a.bin.value)[i] !in bins
    requires b.bin.None? && b.file.None? && ToolsFor(b.tools, c).Some?
    ensures EvaluableUntilSelected([a, b], c, files, bins, cwd, root)
    ensures SelectTools([a, b], c, files, bins, cwd, root) == ToolsFor(b.tools, c)
  {
  }

  /**
   * A catch-all entry with one `build` tool, such as `make build`: invoked
   * as `b`, the program runs exactly that program with those arguments and,
   * when it exits with 0, finishes with status 0.
   */
  lemma SingleBuildToolScenario(x: Entry, program: string, args: seq<string>, cwd: Path, files: set<Path>,
                                bins: set<string>, run: Invocation -> RunResult)
    requires |program| > 0 && IsWord(program)
    requires forall i :: 0 <= i < |args| ==> |args[i]| > 0 && IsWord(args[i])
    requires x.bin.None? && x.file.None? && x.tools.build == Some(Single(Unwords([program] + args)))
    requires run(Invocation(program, args)) == Code(0)
    ensures Main("b", false, Some(Config([x])), cwd, None, files, bins, run)
         == Trace([Invocation(program, args)], Finished)
  {
    var words := [program] + args;
    SplitUnwords(words);
    assert ToInvocation(Unwords(words)) == Some(Invocation(program, args)) by {
      assert words[1..] == args;
    }
    var tools := [Unwords(words)];
    assert ParseCommand("b") == Some(Build);
    CatchAllShieldsLaterEntries(x, [], Build, files, bins, cwd, cwd);
    assert [x] + [] == [x];
    assert ToVec(Single(Unwords(words))) == tools;
    assert Main("b", false, Some(Config([x])), cwd, None, files, bins, run) == RunTools(tools, false, run);
    assert tools[1..] == [];
    assert RunTools(tools, false, run) == Trace([Invocation(program, args)], Finished);
  }
}

=== FILE: paths.dfy ===
/**
 * Filesystem paths as the dispatcher sees them.
 *
 * A path is absolute and normalised: the sequence of the names of its
 * components below the filesystem root, so `[]` is `/` and `["home", "u"]`
 * is `/home/u`.  `Path::starts_with` compares whole components, which is
 * sequence-prefix (`<=`) here.
 */
module Paths {
  import opened Wrappers

  type Path = seq<string>

  /**
   * `dir.join(name)` for a single relative file name.  A name holding `/`
   * or an absolute name is not modelled: it would name a deeper file or
   * replace `dir` altogether.
   */
  function Join(dir: Path, name: string): (p: Path)
    ensures |p| == |dir| + 1 && dir <= p && p[|dir|] == name
  {
    dir + [name]
  }

  /** The components `Path::components` yields for a relative path. */
  datatype Component = Normal(name: string) | CurDir | ParentDir | Other

  /** The relative path made of the given names, one `Normal` each. */
  function Normals(names: seq<string>): (cs: seq<Component>)
    ensures |cs| == |names|
    ensures forall i :: 0 <= i < |names| ==> cs[i] == Normal(names[i])
  {
    seq(|names|, i requires 0 <= i < |names| => Normal(names[i]))
  }

  /** The number of leading components two paths share. */
  function CommonPrefixLength(a: Path, b: Path): (n: nat)
    ensures n <= |a| && n <= |b|
    ensures a[..n] == b[..n]
    ensures n < |a| && n < |b| ==> a[n] != b[n]
    decreases |a|
  {
    if |a| == 0 || |b| == 0 || a[0] != b[0] then 0
    else
      var n := 1 + CommonPrefixLength(a[1..], b[1..]);
      assert a[..n] == [a[0]] + a[1..][..n - 1];
      assert b[..n] == [b[0]] + b[1..][..n - 1];
      n
  }

  /**
   * `pathdiff::diff_paths(path, base)` for two absolute normalised paths:
   * one `..` for every component of `base` below the common ancestor,
   * then the components of `path` below it.  For such paths the crate
   * never answers `None`.
   */
  function DiffPaths(path: Path, base: Path): (d: Option<seq<Component>>)
    ensures d.Some?
    ensures base <= path ==> d.value == Normals(path[|base|..])
    ensures !(base <= path) ==> |d.value| > 0 && d.value[0] == ParentDir
  {
    var n := CommonPrefixLength(path, base);
    assert base <= path <==> n == |base| by {
      if n == |base| { assert path[..n] == base; }
    }
    Some(seq(|base| - n, _ => ParentDir) + Normals(path[n..]))
  }
}

=== FILE: search.dfy ===
/**
 * Marker-file search between the working directory and the repository
 * root (`back_search`, `forward_search`, `path_search` of src/config.rs;
 * src/main.rs repeats them with the same behaviour).
 *
 * The filesystem is abstracted as `files`, the set of paths at which
 * `Path::is_file` holds.
 */
module Search {
  import opened Wrappers
  import opened Paths

  /** `search-direction` of a file rule. */
  datatype Direction = Backwards | Forwards

  /** `Direction::default()`: the direction a file rule gets when its configuration omits one. */
  function DefaultDirection(): (d: Direction)
    ensures d == Forwards
  {
    Forwards
  }

  /** `dir.join(file).is_file()`. */
  predicate HasFile(files: set<Path>, dir: Path, file: string) {
    Join(dir, file) in files
  }

  /**
   * Some directory on the line from `root` down to `cwd`, both included,
   * holds `file`.  `cwd[..k]` is the ancestor of `cwd` with `k` components.
   */
  ghost predicate FoundOnLine(files: set<Path>, cwd: Path, root: Path, file: string)
    requires root <= cwd
  {
    exists k :: |root| <= k <= |cwd| && HasFile(files, cwd[..k], file)
  }

  /**
   * `back_search`: look in `cwd`, then in each parent, stopping after
   * `root`.  `back_search` takes `parent().unwrap()` and so panics if the
   * ascent passes `/` without meeting `root`; the model requires `root`
   * to be an ancestor of `cwd` (or `cwd` itself), which rules that out.
   */
  function BackSearch(files: set<Path>, cwd: Path, root: Path, file: string): (found: bool)
    requires root <= cwd
    ensures cwd == root ==> (found <==> HasFile(files, cwd, file))
    decreases |cwd|
  {
    if HasFile(files, cwd, file) then true
    else if cwd == root then false
    else BackSearch(files, cwd[..|cwd| - 1], root, file)
  }

  /** Walk the components of a relative path from `dir`, looking for `file` after every `Normal` step. */
  function Descend(files: set<Path>, dir: Path, cs: seq<Component>, file: string): bool
    decreases |cs|
  {
    if |cs| == 0 then false
    else
      match cs[0]
      case Normal(s) =>
        HasFile(files, Join(dir, s), file) || Descend(files, Join(dir, s), cs[1..], file)
      case CurDir => Descend(files, dir, cs[1..], file)
      case _ => false
  }

  /** The body of `forward_search` once `diff_paths` has answered. */
  function ForwardWalk(files: set<Path>, root: Path, diff: Option<seq<Component>>, file: string): bool {
    match diff
    case None => false
    case Some(cs) => HasFile(files, root, file) || Descend(files, root, cs, file)
  }

  /**
   * `forward_search`: look in `root`, then walk down the relative path from
   * `root` to `cwd`.  Inside the repository that visits every directory
   * from `root` down to `cwd`; outside it the path starts with `..` and
   * only `root` itself is looked at.
   */
  function ForwardSearch(files: set<Path>, cwd: Path, root: Path, file: string): (found: bool)
    ensures root <= cwd ==> (found <==> FoundOnLine(files, cwd, root, file))
    ensures !(root <= cwd) ==> (found <==> HasFile(files, root, file))
  {
    if root <= cwd then
      ForwardWalkInside(files, cwd, root, file);
      ForwardWalk(files, root, DiffPaths(cwd, root), file)
    else
      ForwardWalkOutside(files, cwd, root, file);
      ForwardWalk(files, root, DiffPaths(cwd, root), file)
  }

  /**
   * `path_search`: the search the rule's direction names.  Inside the
   * repository both directions find the file exactly when some directory
   * from `cwd` up to `root` holds it; outside it only forward search is
   * defined, and it looks at `root` alone.
   */
  function PathSearch(files: set<Path>, cwd: Path, root: Path, direction: Direction, file: string): (found: bool)
    requires direction == Backwards ==> root <= cwd
    ensures direction == Backwards ==> found == BackSearch(files, cwd, root, file)
    ensures direction == Forwards ==> found == ForwardSearch(files, cwd, root, file)
    ensures root <= cwd ==> (found <==> FoundOnLine(files, cwd, root, file))
    ensures !(root <= cwd) ==> (found <==> HasFile(files, root, file))
  {
    match direction
    case Backwards =>
      BackSearchSpec(files, cwd, root, file);
      BackSearch(files, cwd, root, file)
    case Forwards => ForwardSearch(files, cwd, root, file)
  }

  // ---------------------------------------------------------------------
  // Backwards search

  /** Backwards search finds the file exactly when some directory from `cwd` up to `root` holds it. */
  lemma {:induction false} BackSearchSpec(files: set<Path>, cwd: Path, root: Path, file: string)
    requires root <= cwd
    ensures BackSearch(files, cwd, root, file) <==> FoundOnLine(files, cwd, root, file)
    decreases |cwd|
  {
    assert cwd[..|cwd|] == cwd;
    if HasFile(files, cwd, file) {
    } else if cwd == root {
      forall k | |root| <= k <= |cwd|
        ensures !HasFile(files, cwd[..k], file)
      {
        assert cwd[..k] == cwd;
      }
    } else {
      var parent := cwd[..|cwd| - 1];
      BackSearchSpec(files, parent, root, file);
      if FoundOnLine(files, parent, root, file) {
        var k :| |root| <= k <= |parent| && HasFile(files, parent[..k], file);
        assert parent[..k] == cwd[..k];
      }
      if FoundOnLine(files, cwd, root, file) {
        var k :| |root| <= k <= |cwd| && HasFile(files, cwd[..k], file);
        if k < |cwd| {
          assert parent[..k] == cwd[..k];
        }
      }
    }
  }

  /**
   * Backwards search never looks above `root`: two filesystems that agree
   * on every directory from `cwd` up to `root` give the same answer.
   */
  lemma BackSearchStaysBelowRoot(files1: set<Path>, files2: set<Path>, cwd: Path, root: Path, file: string)
    requires root <= cwd
    requires forall k :: |root| <= k <= |cwd| ==> (HasFile(files1, cwd[..k], file) <==> HasFile(files2, cwd[..k], file))
    ensures BackSearch(files1, cwd, root, file) == BackSearch(files2, cwd, root, file)
  {
    BackSearchSpec(files1, cwd, root, file);
    BackSearchSpec(files2, cwd, root, file);
  }

  // ---------------------------------------------------------------------
  // Forwards search

  /** The components of `cs` that are not `CurDir`, in order. */
  function DropCurDir(cs: seq<Component>): (ds: seq<Component>)
    ensures forall i :: 0 <= i < |ds| ==> ds[i] != CurDir
  {
    if |cs| == 0 then []
    else if cs[0] == CurDir then DropCurDir(cs[1..])
    else [cs[0]] + DropCurDir(cs[1..])
  }

  /** `CurDir` components are skipped: they neither move the walk nor trigger a check. */
  lemma {:induction false} DescendSkipsCurDir(files: set<Path>, dir: Path, cs: seq<Component>, file: string)
    ensures Descend(files, dir, cs, file) == Descend(files, dir, DropCurDir(cs), file)
    decreases |cs|
  {
    if |cs| == 0 {
    } else if cs[0] == CurDir {
      DescendSkipsCurDir(files, dir, cs[1..], file);
    } else {
      var ds := [cs[0]] + DropCurDir(cs[1..]);
      assert ds[1..] == DropCurDir(cs[1..]);
      match cs[0]
      case Normal(s) => DescendSkipsCurDir(files, Join(dir, s), cs[1..], file);
      case _ =>
    }
  }

  /**
   * The walk stops for good at the first component that is neither
   * `Normal` nor `CurDir` (a `..`, a root or a prefix): whatever follows
   * it is never examined.
   */
  lemma {:induction false} DescendStopsAtEscape(files: set<Path>, dir: Path, cs: seq<Component>, i: nat, file: string)
    requires i < |cs| && !cs[i].Normal? && cs[i] != CurDir
    ensures Descend(files, dir, cs, file) == Descend(files, dir, cs[..i], file)
    decreases i
  {
    if i == 0 {
    } else {
      assert cs[..i][0] == cs[0];
      assert cs[..i][1..] == cs[1..][..i - 1];
      match cs[0]
      case Normal(s) => DescendStopsAtEscape(files, Join(dir, s), cs[1..], i - 1, file);
      case CurDir => DescendStopsAtEscape(files, dir, cs[1..], i - 1, file);
      case _ =>
    }
  }

  /** Walking down `names` from `dir` finds the file exactly when it sits in some `dir + names[..k]` with `k >= 1`. */
  lemma {:induction false} DescendNormals(files: set<Path>, dir: Path, names: seq<string>, file: string)
    ensures Descend(files, dir, Normals(names), file)
        <==> exists k :: 1 <= k <= |names| && HasFile(files, dir + names[..k], file)
    decreases |names|
  {
    if |names| == 0 {
    } else {
      var next := Join(dir, names[0]);
      assert Normals(names)[1..] == Normals(names[1..]);
      DescendNormals(files, next, names[1..], file);
      assert dir + names[..1] == next;
      forall k | 1 <= k <= |names[1..]|
        ensures next + names[1..][..k] == dir + names[..k + 1]
      {
        assert names[..k + 1] == [names[0]] + names[1..][..k];
      }
      if exists k :: 1 <= k <= |names| && HasFile(files, dir + names[..k], file) {
        var k :| 1 <= k <= |names| && HasFile(files, dir + names[..k], file);
        if k > 1 {
          assert next + names[1..][..k - 1] == dir + names[..k];
        }
      }
    }
  }

  /**
   * Inside the repository, the walk finds the file exactly when some
   * directory from `root` down to `cwd`, both included, holds it.
   */
  lemma ForwardWalkInside(files: set<Path>, cwd: Path, root: Path, file: string)
    requires root <= cwd
    ensures ForwardWalk(files, root, DiffPaths(cwd, root), file) <==> FoundOnLine(files, cwd, root, file)
  {
    var rest := cwd[|root|..];
    DescendNormals(files, root, rest, file);
    assert cwd[..|root|] == root;
    forall k | 0 <= k <= |rest|
      ensures root + rest[..k] == cwd[..|root| + k]
    {
    }
    if FoundOnLine(files, cwd, root, file) {
      var k :| |root| <= k <= |cwd| && HasFile(files, cwd[..k], file);
      if k > |root| {
        assert root + rest[..k - |root|] == cwd[..k];
      }
    }
  }

  /**
   * Outside the repository the walk begins with `..` and fails at once, so
   * only `root/file` itself can make the walk succeed.
   */
  lemma ForwardWalkOutside(files: set<Path>, cwd: Path, root: Path, file: string)
    requires !(root <= cwd)
    ensures ForwardWalk(files, root, DiffPaths(cwd, root), file) <==> HasFile(files, root, file)
  {
  }

  /** When `cwd` is the root, forward search is the single check of `root/file`. */
  lemma ForwardSearchAtRoot(files: set<Path>, root: Path, file: string)
    ensures ForwardSearch(files, root, root, file) <==> HasFile(files, root, file)
  {
  }

  /**
   * Whenever backwards search is defined (`root` an ancestor of `cwd`), the
   * two directions examine the same directories and always agree.
   */
  lemma DirectionsAgreeInside(files: set<Path>, cwd: Path, root: Path, file: string)
    requires root <= cwd
    ensures PathSearch(files, cwd, root, Backwards, file) == PathSearch(files, cwd, root, Forwards, file)
  {
  }
}

=== FILE: text.dfy ===
/** Joining strings with a separator, as the options message does. */
module Text {

  /** `parts` separated by `sep`. */
  function JoinWith(parts: seq<string>, sep: string): string
    decreases |parts|
  {
    if |parts| == 0 then ""
    else if |parts| == 1 then parts[0]
    else JoinWith(parts[..|parts| - 1], sep) + sep + parts[|parts| - 1]
  }

  /** Appending one more part adds a separator and the part. */
  lemma JoinSnoc(parts: seq<string>, x: string, sep: string)
    requires |parts| > 0
    ensures JoinWith(parts + [x], sep) == JoinWith(parts, sep) + sep + x
  {
  }

  /** Five parts joined: each neighbouring pair has one separator between them. */
  lemma JoinFive(a: string, b: string, c: string, d: string, e: string, sep: string)
    ensures JoinWith([a, b, c, d, e], sep) == a + sep + b + sep + c + sep + d + sep + e
    ensures "[" + JoinWith([a, b, c, d, e], sep) + "]" == "[" + a + sep + b + sep + c + sep + d + sep + e + "]"
  {
    JoinSnoc([a], b, sep);
    assert [a] + [b] == [a, b];
    JoinSnoc([a, b], c, sep);
    assert [a, b] + [c] == [a, b, c];
    JoinSnoc([a, b, c], d, sep);
    assert [a, b, c] + [d] == [a, b, c, d];
    JoinSnoc([a, b, c, d], e, sep);
    assert [a, b, c, d] + [e] == [a, b, c, d, e];
  }
}

=== FILE: tokens.dfy ===
/**
 * `str::split_whitespace`, which both drivers use to turn a configured
 * command string into a program name and its arguments.  There is no
 * quoting: a token never contains white space.
 */
module Tokens {

  /** Rust's `char::is_whitespace`: the Unicode `White_Space` property. */
  predicate IsWhitespace(c: char) {
    || ('\t' <= c <= '\r')
    || c == ' '
    || c == '\U{85}'
    || c == '\U{A0}'
    || c == '\U{1680}'
    || ('\U{2000}' <= c <= '\U{200A}')
    || c == '\U{2028}'
    || c == '\U{2029}'
    || c == '\U{202F}'
    || c == '\U{205F}'
    || c == '\U{3000}'
  }

  /** A string with no white space in it. */
  predicate IsWord(w: string) {
    forall i :: 0 <= i < |w| ==> !IsWhitespace(w[i])
  }

  /** A string made only of white space (possibly empty). */
  predicate IsBlank(s: string) {
    forall i :: 0 <= i < |s| ==> IsWhitespace(s[i])
  }

  /** The length of the longest white-space-free prefix of `s`. */
  function LeadingWord(s: string): (n: nat)
    ensures n <= |s| && IsWord(s[..n])
    ensures n < |s| ==> IsWhitespace(s[n])
  {
    if |s| == 0 || IsWhitespace(s[0]) then 0
    else
      var n := 1 + LeadingWord(s[1..]);
      assert s[..n] == [s[0]] + s[1..][..n - 1];
      n
  }

  /** `s.split_whitespace().collect()`. */
  function SplitWhitespace(s: string): (tokens: seq<string>)
    ensures forall i :: 0 <= i < |tokens| ==> |tokens[i]| > 0 && IsWord(tokens[i])
    ensures tokens == [] <==> IsBlank(s)
    decreases |s|
  {
    if |s| == 0 then []
    else if IsWhitespace(s[0]) then SplitWhitespace(s[1..])
    else
      var n := LeadingWord(s);
      [s[..n]] + SplitWhitespace(s[n..])
  }

  /** `s` with every white-space character removed. */
  function Strip(s: string): string {
    if |s| == 0 then ""
    else if IsWhitespace(s[0]) then Strip(s[1..])
    else [s[0]] + Strip(s[1..])
  }

  /** The tokens laid end to end. */
  function Concat(ws: seq<string>): string {
    if |ws| == 0 then "" else ws[0] + Concat(ws[1..])
  }

  /** The tokens joined by single spaces. */
  function Unwords(ws: seq<string>): string {
    if |ws| == 0 then ""
    else if |ws| == 1 then ws[0]
    else ws[0] + " " + Unwords(ws[1..])
  }

  lemma {:induction false} StripAppend(a: string, b: string)
    ensures Strip(a + b) == Strip(a) + Strip(b)
    decreases |a|
  {
    if |a| == 0 {
      assert a + b == b;
    } else {
      assert (a + b)[1..] == a[1..] + b;
      StripAppend(a[1..], b);
    }
  }

  lemma {:induction false} StripWord(w: string)
    requires IsWord(w)
    ensures Strip(w) == w
    decreases |w|
  {
    if |w| > 0 {
      StripWord(w[1..]);
    }
  }

  /** Splitting loses exactly the white space: the tokens spell out the non-blank characters in order. */
  lemma {:induction false} SplitKeepsText(s: string)
    ensures Concat(SplitWhitespace(s)) == Strip(s)
    decreases |s|
  {
    if |s| == 0 {
    } else if IsWhitespace(s[0]) {
      SplitKeepsText(s[1..]);
    } else {
      var n := LeadingWord(s);
      var tokens := SplitWhitespace(s);
      assert tokens[0] == s[..n] && tokens[1..] == SplitWhitespace(s[n..]);
      SplitKeepsText(s[n..]);
      assert s == s[..n] + s[n..];
      StripAppend(s[..n], s[n..]);
      StripWord(s[..n]);
    }
  }

  /** A word followed by white space splits off as one token. */
  lemma SplitWordThenRest(w: string, rest: string)
    requires |w| > 0 && IsWord(w)
    ensures SplitWhitespace(w + " " + rest) == [w] + SplitWhitespace(rest)
  {
    var s := w + " " + rest;
    LeadingWordOf(w, rest);
    assert s[..|w|] == w;
    assert s[|w|..][1..] == rest;
  }

  lemma {:induction false} LeadingWordOf(w: string, rest: string)
    requires IsWord(w)
    ensures LeadingWord(w + " " + rest) == |w|
    decreases |w|
  {
    var s := w + " " + rest;
    if |w| > 0 {
      assert s[1..] == w[1..] + " " + rest;
      LeadingWordOf(w[1..], rest);
    }
  }

  lemma {:induction false} LeadingWholeWord(w: string)
    requires IsWord(w)
    ensures LeadingWord(w) == |w|
    decreases |w|
  {
  }

  /** A word that ends where white space begins is the whole leading word. */
  lemma {:induction false} LeadingWordAppend(a: string, t: string)
    requires |t| > 0 && IsWhitespace(t[0])
    ensures LeadingWord(a + t) == LeadingWord(a)
    decreases |a|
  {
    if |a| == 0 {
      assert a + t == t;
    } else if !IsWhitespace(a[0]) {
      assert (a + t)[1..] == a[1..] + t;
      LeadingWordAppend(a[1..], t);
    }
  }

  /** A non-empty word is one token: splitting never breaks inside a run without white space. */
  lemma SplitWord(w: string)
    requires |w| > 0 && IsWord(w)
    ensures SplitWhitespace(w) == [w]
  {
    LeadingWholeWord(w);
    assert w[..|w|] == w;
  }

  /** White space before a string is skipped. */
  lemma {:induction false} SplitSkipsBlank(sep: string, b: string)
    requires IsBlank(sep)
    ensures SplitWhitespace(sep + b) == SplitWhitespace(b)
    decreases |sep|
  {
    if |sep| == 0 {
      assert sep + b == b;
    } else {
      assert (sep + b)[1..] == sep[1..] + b;
      SplitSkipsBlank(sep[1..], b);
    }
  }

  /**
   * Tokens break exactly at white space: two strings glued by any
   * non-empty run of white space split into the tokens of the first
   * followed by the tokens of the second.
   */
  lemma {:induction false} SplitAppendBlank(a: string, sep: string, b: string)
    requires |sep| > 0 && IsBlank(sep)
    ensures SplitWhitespace(a + sep + b) == SplitWhitespace(a) + SplitWhitespace(b)
    decreases |a|
  {
    var s := a + sep + b;
    if |a| == 0 {
      assert s == sep + b;
      SplitSkipsBlank(sep, b);
    } else if IsWhitespace(a[0]) {
      assert s[1..] == a[1..] + sep + b;
      SplitAppendBlank(a[1..], sep, b);
    } else {
      var n := LeadingWord(a);
      assert s == a + (sep + b);
      LeadingWordAppend(a, sep + b);
      assert s[..n] == a[..n];
      assert s[n..] == a[n..] + sep + b;
      SplitAppendBlank(a[n..], sep, b);
    }
  }

  /** Words joined by spaces split back into the same words. */
  lemma {:induction false} SplitUnwords(ws: seq<string>)
    requires forall i :: 0 <= i < |ws| ==> |ws[i]| > 0 && IsWord(ws[i])
    ensures SplitWhitespace(Unwords(ws)) == ws
    decreases |ws|
  {
    if |ws| == 0 {
    } else if |ws| == 1 {
      var w := ws[0];
      LeadingWholeWord(w);
      assert w[..|w|] == w;
    } else {
      SplitUnwords(ws[1..]);
      SplitWordThenRest(ws[0], Unwords(ws[1..]));
    }
  }
}

=== FILE: wrappers.dfy ===
/** The optional-value type shared by every module of the model. */
module Wrappers {

  /** Rust's `Option<T>`. */
  datatype Option<+T> = None | Some(value: T) {

    /** `unwrap_or`: the carried value, or `default` when there is none. */
    function GetOr(default: T): T {
      match this
      case Some(v) => v
      case None => default
    }
  }
}
